=== FILE: README.md ===
# Logging core of the proxy: sink delegates, line escaping, contexts and the logger registry

This project models, in Dafny, the sequential logic of the proxy's logging subsystem:

- **The delegating log sink** (`Delegates`). Every logger writes to one sink. The sink hands each line
  to its *current delegate*. Creating a `SinkDelegate` makes it current and records the delegate it
  replaced. Destroying it asserts that it is current and brings the recorded one back. `init` installs
  the built-in stderr delegate at the bottom. The sink forwards `setLock`/`clearLock`/`hasLock` to that
  stderr delegate, whichever delegate is current. `log` picks the formatter's output or the raw payload,
  then escapes it or not.
- **`escapeLogLine`** (`Escaping`). It splits a line into leading text and its maximal trailing run of
  ASCII whitespace. It C-escapes the leading text and re-appends the whitespace unchanged.
- **The registry** (`Registry`). A fixed table of 43 loggers, one per id, in listed order and named by
  the id's spelling. It supports lookup by ordinal (`getLog`), first-match lookup by name (`logger`) and
  the bulk `setLogLevel`/`setLogFormat`.
- **The log macros** (`LogMacros`). These cover the level gate and the `"[file:line] "`, `"[C{}] "` and
  `"[C{}][S{}] "` prefixes.
- **Nested logging contexts** (`Contexts`). Creating a context applies its lock, escape flag, level and
  format. Destroying it re-applies the context it saved, or only clears the lock when none is left.

Both stacks are intrusive linked lists in the source: each delegate keeps `previous_delegate_` and each
context keeps `save_context_`. Both are modelled by one module, `LinkedStack`. It holds a current pointer
plus a map from each live element to its saved pointer. A ghost predicate `Stacked(links, s)` reads the
links as the abstract stack `s`. Lemmas show that creation pushes, that destroying the current element
pops, that a create/destroy pair restores the links exactly, and that the links have only one reading.

State is immutable: every operation is a function from the old state to the new one. The singleton sink
and the logger table are fields of one `Contexts.Logging` value.

Modelling choices:
- Log text is bytes: `Escaping.Byte` is a `char` below 256.
- absl's `CEscape` is written out per byte, following absl's documented behaviour:
  - `\n`, `\r`, `\t`, `"`, `'` and `\` get their named escapes;
  - every other byte outside 0x20..0x7e becomes a three-digit octal escape;
  - every remaining byte is copied.
- `CUnescape` is a reference decoder introduced only to state that escaping loses nothing. It is not
  absl's `CUnescape`.
- How spdlog's pattern formatter renders a record is the parameter `render` of `Delegates.Log`.
- The level and pattern a freshly built spdlog logger starts with are parameters of
  `Registry.AllLoggers`.

## Model

| member | source | states |
|---|---|---|
| Escaping.CEscapeByte | source/common/common/essential_logger_delegates.cc:61 | one byte escapes to 1-4 printable bytes; the escape is the byte itself exactly for printable bytes other than quote, apostrophe and backslash; only a space escapes to something that ends in whitespace |
| Escaping.CEscape | source/common/common/essential_logger_delegates.cc:61 | the escape of a text is all printable, between 1 and 4 times as long, and empty only for the empty text |
| Escaping.CUnescapeCEscape | source/common/common/essential_logger_delegates.cc:61 | decoding the escape of any text gives the text back, so escaping loses nothing |
| Escaping.IsAsciiSpace | source/common/common/essential_logger_delegates.cc:55-58 | the whitespace test: space, tab, newline, vertical tab, form feed and carriage return |
| Escaping.TrailingStart | source/common/common/essential_logger_delegates.cc:55-58 | the split point: everything after it is ASCII whitespace and the byte before it is not |
| Escaping.TrailingStartUnique | source/common/common/essential_logger_delegates.cc:55-58 | the split is the maximal whitespace suffix: any split with those two properties is this one |
| Escaping.EscapeLogLine | source/common/common/essential_logger_delegates.cc:53-62 | the result ends with exactly the input's trailing whitespace, everything before it is printable, and an empty or all-whitespace line is returned unchanged |
| Escaping.EscapeLogLineRoundTrip | source/common/common/essential_logger_delegates.cc:53-62 | splitting an escaped line at its trailing whitespace and decoding the lead recovers the original line |
| LinkedStack.Push | source/common/common/essential_logger_delegates.cc:6-9 | a new element becomes current and records the previously current one; other saved pointers are untouched |
| LinkedStack.Pop | source/common/common/essential_logger_delegates.cc:11-14 | destroying an element makes its saved pointer current and removes only it |
| LinkedStack.PushStacked | source/common/common/essential_logger_delegates.h:27-31 | creation pushes the element onto the abstract stack |
| LinkedStack.PopStacked | source/common/common/essential_logger_delegates.h:27-31 | destroying the top element pops the abstract stack and restores the element below as current |
| LinkedStack.PushPopRestores | source/common/common/essential_logger_delegates.cc:6-14 | a create/destroy pair leaves the links exactly as they were |
| LinkedStack.StackedUnique | source/common/common/essential_logger_delegates.h:27-31 | the chain of saved pointers determines the stack: two stack readings of the same links are equal |
| Delegates.NewStderrSink | source/common/common/essential_logger_delegates.h:65 | the stderr delegate starts without a lock |
| Delegates.NewLogSink | source/common/common/essential_logger_delegates.h:116-125 | a freshly constructed sink has no current delegate, no stderr delegate, no formatter and escaping off |
| Delegates.Attach | source/common/common/essential_logger_delegates.cc:6-9 | constructing a delegate makes it current and records the previously current one; it pushes the delegate stack; lock, formatter and escape flag are untouched |
| Delegates.Detach | source/common/common/essential_logger_delegates.cc:11-14 | destroying a delegate requires it to be current, restores its previous delegate, pops the stack and touches nothing else |
| Delegates.InitSink | source/common/common/essential_logger_delegates.cc:64-67 | after init the stderr delegate is current, its previous delegate is null, it is the only one on the stack, and there is no lock, no formatter and no escaping |
| Delegates.HasLock | source/common/common/essential_logger_delegates.h:89 | hasLock reads the built-in stderr delegate's lock |
| Delegates.LockIndependentOfDelegates | source/common/common/essential_logger_delegates.h:74-89 | creating or destroying a delegate never changes hasLock, and setLock/clearLock decide it whichever delegate is current |
| Delegates.SetLock | source/common/common/essential_logger_delegates.h:74 | afterwards hasLock is true with the given lock; the delegates, formatter and escape flag are unchanged |
| Delegates.ClearLock | source/common/common/essential_logger_delegates.h:75 | afterwards hasLock is false; the delegates, formatter and escape flag are unchanged |
| Delegates.SetShouldEscape | source/common/common/essential_logger_delegates.h:84 | the escape flag becomes exactly the given value and nothing else changes |
| Delegates.SetPattern | source/common/common/essential_logger_delegates.h:80-82 | installs a pattern formatter for the pattern and changes nothing else |
| Delegates.Log | source/common/common/essential_logger_delegates.cc:33-51 | the current delegate receives the formatter's output (or the raw payload when no formatter is installed); unchanged when escaping is off, and its escaped form when on, from which the original can be recovered |
| Delegates.Flush | source/common/common/essential_logger_delegates.h:79 | flush goes to the current delegate |
| Delegates.DelegateScopeRestoresSink | source/common/common/essential_logger_delegates.cc:6-14 | constructing then destroying a delegate leaves the whole sink unchanged |
| Delegates.DelegateOverridesStderr | source/common/common/essential_logger_delegates.h:68-71 | after init, lines go to a caller's delegate while it exists and to stderr again once it is destroyed |
| Registry.Ordinal | source/common/common/logger_registry.h:16-64 | each id's enum ordinal, below 43 |
| Registry.Spelling | source/common/common/logger_registry.h:16-59 | each id's stringized name, never empty |
| Registry.IdsInListedOrder | source/common/common/logger_registry.h:16-64 | every id's enum ordinal is its position among the 43 listed ids, and every position below 43 holds the id of that ordinal |
| Registry.SpellingRoundTrip | source/common/common/logger_registry.h:16-59 | each id is read back from its spelling |
| Registry.SpellingInjective | source/common/common/logger_registry.h:16-59 | two ids have the same name exactly when they are the same id |
| Registry.SpellingsDistinct | source/common/common/logger_registry.h:16-59 | the 43 listed names are pairwise distinct |
| Registry.AllLoggers | source/common/common/logger_registry.cc:6-10 | the table has one logger per id in enum order, named by the id's spelling, all with the initial level and pattern |
| Registry.GetLog | source/common/common/logger_registry.cc:12 | getLog(id) is the table entry at the id's ordinal, and on the registry table it is the logger named by id's spelling |
| Registry.GetLogIsLookup | source/common/common/logger.h:58-67 | Loggable<id>'s logger and logger(spelling(id)) are the same table entry |
| Registry.GetLogSeesUpdates | source/common/common/logger.h:58-67 | the logger Loggable<id> holds is the table entry, so it carries every later bulk level and format |
| Registry.SetLogLevel | source/common/common/logger_registry.cc:14-18 | every logger gets the new level; names and patterns are unchanged; the length is kept |
| Registry.SetLogFormat | source/common/common/logger_registry.cc:20-24 | every logger gets the new pattern; names and levels are unchanged; the length is kept |
| Registry.SetLogLevelIdempotent | source/common/common/logger_registry.cc:14-18 | applying setLogLevel twice equals applying it once, and a later level overrides an earlier one |
| Registry.SettersKeepRegistry | source/common/common/logger_registry.cc:14-24 | the bulk setters keep the table one logger per id in order with the same names |
| Registry.FindLoggerFrom | source/common/common/logger_registry.cc:29-34 | the scan from a position returns the first matching position at or after it, or none exactly when no later entry matches |
| Registry.FindLogger | source/common/common/logger_registry.cc:27-36 | logger(name) returns the first entry with that name, and null exactly when no entry has it |
| Registry.FindLoggerBySpelling | source/common/common/logger_registry.cc:27-36 | looking up an id's spelling finds the entry at the id's ordinal, the one getLog returns |
| Registry.FindLoggerMissing | source/common/common/logger_registry.cc:27-36 | on the registry table, lookup fails exactly for names that spell no id |
| LogMacros.Decimal | source/common/common/logger.h:73-75 | the stringized line number is a non-empty run of decimal digits with no leading zero |
| LogMacros.DecimalRoundTrip | source/common/common/logger.h:73-75 | the stringized line number reads back as the line number |
| LogMacros.LogPrefix | source/common/common/logger.h:76 | the prefix reads back as "[", the file name, ":", the line number in decimal without leading zeros and "] " |
| LogMacros.LogPrefixPlaceholders | source/common/common/logger.h:76 | the "[file:line] " prefix adds format placeholders only where the file name itself contains them |
| LogMacros.PlaceholdersAppend | source/common/common/logger.h:92 | placeholders of a prefixed format add up when the seam does not itself spell "{}" |
| LogMacros.PassesLevel | source/common/common/logger.h:83-84 | a statement passes a logger's gate when its level is at least the logger's level |
| LogMacros.RaisingLoggerLevelFilters | source/common/common/logger.h:83-84 | raising a logger's level never lets a statement through that the lower level blocked |
| LogMacros.PassesLevelMonotone | source/common/common/logger.h:83-84 | a statement that passes the level gate at some level also passes it at every higher level |
| LogMacros.LogToLogger | source/common/common/logger.h:89-94 | the logger is called exactly when the statement's level is at least the logger's level, with the arguments unchanged and the format "[<file>:<line>] " followed by the caller's format, which has the file's plus the caller's placeholders |
| LogMacros.ConnLogToLogger | source/common/common/logger.h:131-132 | gated like the plain macro, at the statement's level, with the format "[<file>:<line>] [C{}] " followed by the caller's format; the connection id comes first among the arguments, and exactly one placeholder is added |
| LogMacros.StreamLogToLogger | source/common/common/logger.h:140-143 | gated like the plain macro, at the statement's level, with the format "[<file>:<line>] [C{}][S{}] " followed by the caller's format; the arguments start with the connection id, or 0 without a connection, then the stream id; exactly two placeholders are added |
| Contexts.Initialized | source/common/common/logger_registry.h:106 | initialized() is whether the singleton sink has a lock |
| Contexts.InitialLogging | source/common/common/logger_registry.h:82-85 | the state built from the singleton sink and the fresh table is valid, has no context, and is not initialized (initialized() holds exactly when the sink has a lock); the sink's formatter is the table's initial pattern |
| Contexts.SetLogFormatAndSink | source/common/common/logger_registry.cc:20-24 | every logger gets the pattern, and when there is any logger the shared sink gets a pattern formatter for it; with no logger the sink is untouched |
| Contexts.Activate | source/common/common/logger.cc:47-52 | the sink's lock and escape flag, every logger's level and format, and the shared sink's formatter become the context's; the delegates, the logger names and the context stack are unchanged |
| Contexts.ActivateApplied | source/common/common/logger.cc:47-52 | activating the settings already in force changes nothing |
| Contexts.CreateContext | source/common/common/logger.cc:30-36 | the new context becomes current, remembers the previous one, pushes the context stack and has its settings applied; the other contexts' saved pointers and settings, the delegates and the logger names are unchanged |
| Contexts.DestroyContext | source/common/common/logger.cc:38-45 | the saved context becomes current again and is re-applied; with none saved, only the lock is cleared and levels, formats, the formatter and the escape flag keep their values; only the destroyed context leaves the links and settings; the delegates and logger names are unchanged; the top context's destruction pops the stack |
| Contexts.NestedContextRestores | source/common/common/logger.h:34-37 | creating and destroying a context inside the current one restores exactly the outer context's state |
| Contexts.NestedContextReactivates | source/common/common/logger.h:34-37 | from any valid state with a current context, creating and destroying an inner context re-applies the outer context and leaves the context stack and settings as they were |
| Contexts.OutermostContextUnlocks | source/common/common/logger.cc:38-45 | after the outermost context is destroyed logging is unlocked, while its level, format and escape flag stay in force |
| Contexts.ContextGatesStatements | source/common/common/logger.h:83-84 | right after a context is created, a statement reaches any logger exactly when its level is at least the context's level (a later individual setLogLevel can change that while the context is still current) |
| Contexts.ContextsKeepLookup | source/common/common/logger_registry.cc:27-36 | contexts never disturb lookup by name: an id's spelling still finds getLog's entry |

## Left out

- The HTTP decompressor filter and the gzip decompressor factory. Only declarations, a thin factory
  wrapper and registration macros exist for them, so there is no behaviour to model.
- The protobuf link hacks: link-time dummy objects with no behaviour.
- Writing to stderr, flushing the stream, the format mutex and the lock objects themselves. These are
  I/O and concurrency. A lock is an opaque `LockToken`, and `StderrSinkDelegate::log`/`flush` become
  "which delegate receives the call".
- spdlog internals are not part of this model:
  - how a pattern formatter renders a record (the parameter `render`);
  - a logger's initial level and pattern (parameters of `AllLoggers`);
  - `set_formatter` with an arbitrary formatter object (only pattern formatters are modelled).
- `Logger::setPattern` forwards to spdlog, which installs a pattern formatter on every sink of the
  logger, and all loggers share the one sink. `base_logger.h` and spdlog are not part of this model, so
  this effect is written out once, in `Contexts.SetLogFormatAndSink`: after a format is set for a
  non-empty table, the sink's formatter is a pattern formatter for that format.
- absl's `CEscape` is written out per byte from its documented behaviour, because absl is not part of
  this model.
- The `fmt` rendering of a format with its arguments. Log macros produce the format string and argument
  list the logger receives. `Placeholders` counts `{}` pairs and ignores fmt's `{{`/`}}` escapes.
- Registry.getSink and Registry.loggers: both return the same static object on every call. In the
  model there is one sink and one table per `Logging` value, so both hold by construction. Lazy
  static initialisation is not modelled.
- Contexts.InitialLogging: the base `Logger` constructor (`base_logger.h`) is not part of this model.
  That the sink starts with a pattern formatter for `initialPattern` is a modelling choice. It is
  consistent with `Contexts.SetLogFormatAndSink`: a logger's pattern is installed on the shared sink.
- Contexts.DestroyContext: the source does not check that the destroyed context is the current one
  (unlike `SinkDelegate`). The model allows destroying any live context whose saved context is live.
  The stack lemmas are proved for destroying the current one only.
- Macro mechanics: static-local caching in `Loggable`, lazy evaluation of log arguments and the
  AndroidLogger code, which is commented out.

=== FILE: contexts.dfy ===
/**
 * The process-wide logging state and the nested logging contexts.
 *
 * There is one sink and one logger table for the whole process. A context
 * bundles a level, a format, a lock and an escape flag; creating one makes
 * it current (remembering the context it replaces) and applies its settings,
 * destroying one re-applies the context it replaced or, when none is left,
 * only clears the sink's lock.
 */
module Contexts {
  import opened Wrappers
  import opened LinkedStack
  import opened Delegates
  import opened Registry
  import opened LogMacros

  type ContextId = nat

  /** What a context applies while it is current. */
  datatype ContextSettings = ContextSettings(level: Level, format: string, lock: LockToken, shouldEscape: bool)

  datatype Logging = Logging(
    sink: LogSink,                              // the singleton sink
    loggers: seq<Logger>,                       // the logger table
    contexts: Links<ContextId>,                 // the current context and each live context's saved one
    settings: map<ContextId, ContextSettings>)  // the settings of each live context

  /** A state the logging code can reach: the sink is initialised, every live context has settings, the table is the registry's. */
  ghost predicate Valid(w: Logging) {
    && w.sink.stderr.Some?
    && w.settings.Keys == w.contexts.prev.Keys
    && IsRegistryTable(w.loggers)
  }

  /**
   * The state before any context exists: the sink as init builds it and the
   * logger table as first built, with the logging library's initial level and
   * pattern as parameters. A logger's pattern lives on the sink it shares, so
   * building the table leaves a pattern formatter for the initial pattern on
   * the sink.
   */
  function InitialLogging(initialLevel: Level, initialPattern: string): (w: Logging)
    ensures Valid(w) && w.contexts.top.None? && Stacked(w.contexts, [])
    ensures !Initialized(w)
    ensures w.sink.formatter == Some(PatternFormatter(initialPattern))
  {
    Logging(SetPattern(InitSink(), initialPattern), AllLoggers(initialLevel, initialPattern), Empty(), map[])
  }

  /** Registry::initialized: the singleton sink has a lock. */
  predicate Initialized(w: Logging)
    requires w.sink.stderr.Some?
  {
    HasLock(w.sink)
  }

  /** The observable settings are exactly those of `c`. */
  ghost predicate Applied(w: Logging, c: ContextSettings) {
    && w.sink.stderr == Some(StderrSink(Some(c.lock)))
    && w.sink.shouldEscape == c.shouldEscape
    && (|w.loggers| > 0 ==> w.sink.formatter == Some(PatternFormatter(c.format)))
    && forall i :: 0 <= i < |w.loggers| ==> w.loggers[i].level == c.level && w.loggers[i].pattern == c.format
  }

  /**
   * Registry::setLogFormat as it reaches the shared sink: every logger gets
   * the pattern, and each logger's setPattern also installs a pattern
   * formatter on the sink all loggers share (the logging library passes a
   * logger's formatter on to its sinks). With no logger the sink is untouched.
   */
  function SetLogFormatAndSink(w: Logging, f: string): (r: Logging)
    ensures r.loggers == SetLogFormat(w.loggers, f)
    ensures |w.loggers| > 0 ==> r.sink == SetPattern(w.sink, f)
    ensures |w.loggers| == 0 ==> r.sink == w.sink
    ensures r.contexts == w.contexts && r.settings == w.settings
  {
    w.(loggers := SetLogFormat(w.loggers, f),
       sink := if |w.loggers| == 0 then w.sink else SetPattern(w.sink, f))
  }

  /**
   * Context::activate: the sink's lock and escape flag, every logger's level
   * and format, and with them the shared sink's formatter, become the
   * context's.
   */
  function Activate(w: Logging, c: ContextSettings): (r: Logging)
    requires w.sink.stderr.Some?
    ensures Applied(r, c) && r.sink.stderr.Some? && Initialized(r)
    ensures r.contexts == w.contexts && r.settings == w.settings
    ensures r.sink.delegates == w.sink.delegates
    ensures |w.loggers| == 0 ==> r.sink.formatter == w.sink.formatter
    ensures |r.loggers| == |w.loggers| && forall i :: 0 <= i < |w.loggers| ==> r.loggers[i].name == w.loggers[i].name
    ensures Valid(w) ==> Valid(r)
  {
    var sink := SetShouldEscape(SetLock(w.sink, c.lock), c.shouldEscape);
    var leveled := w.(sink := sink, loggers := SetLogLevel(w.loggers, c.level));
    SetLogFormatAndSink(leveled, c.format)
  }

  /** Activating the settings that are already in force changes nothing. */
  lemma ActivateApplied(w: Logging, c: ContextSettings)
    requires w.sink.stderr.Some? && Applied(w, c)
    ensures Activate(w, c) == w
  {
    var r := Activate(w, c);
    assert r.loggers == w.loggers;
    assert r.sink == w.sink;
  }

  /** The Context constructor: the new context becomes current, remembers the previous one, and is applied. */
  function CreateContext(w: Logging, id: ContextId, c: ContextSettings): (r: Logging)
    requires w.sink.stderr.Some? && id !in w.contexts.prev
    ensures r.contexts.top == Some(id) && r.contexts.prev == w.contexts.prev[id := w.contexts.top]
    ensures r.settings == w.settings[id := c]
    ensures Applied(r, c) && r.sink.stderr.Some? && Initialized(r)
    ensures r.sink.delegates == w.sink.delegates
    ensures |r.loggers| == |w.loggers| && forall i :: 0 <= i < |w.loggers| ==> r.loggers[i].name == w.loggers[i].name
    ensures forall s0 :: Stacked(w.contexts, s0) ==> Stacked(r.contexts, s0 + [id])
    ensures Valid(w) ==> Valid(r)
  {
    PushStackedAll(w.contexts, id);
    Activate(w.(contexts := Push(w.contexts, id), settings := w.settings[id := c]), c)
  }


  /**
   * The Context destructor: the context it saved becomes current again and
   * is re-applied; when it saved none, only the sink's lock is cleared and
   * levels, formats and the escape flag keep their last values.
   */
  function DestroyContext(w: Logging, id: ContextId): (r: Logging)
    requires w.sink.stderr.Some? && id in w.contexts.prev
    requires w.contexts.prev[id].Some? ==> w.contexts.prev[id].value in w.settings
    ensures r.contexts.top == w.contexts.prev[id] && r.contexts.prev == w.contexts.prev - {id}
    ensures r.settings == w.settings - {id} && r.sink.stderr.Some?
    ensures r.sink.delegates == w.sink.delegates
    ensures |r.loggers| == |w.loggers| && forall i :: 0 <= i < |w.loggers| ==> r.loggers[i].name == w.loggers[i].name
    ensures w.contexts.prev[id].Some? ==> Applied(r, w.settings[w.contexts.prev[id].value]) && Initialized(r)
    ensures w.contexts.prev[id].None? ==>
      && !Initialized(r)
      && r.loggers == w.loggers
      && r.sink.shouldEscape == w.sink.shouldEscape
      && r.sink.delegates == w.sink.delegates
      && r.sink.formatter == w.sink.formatter
    ensures forall s0 :: Stacked(w.contexts, s0 + [id]) ==> Stacked(r.contexts, s0)
    ensures Valid(w) ==> Valid(r)
  {
    PopStackedAll(w.contexts, id);
    var popped := w.(contexts := Pop(w.contexts, id), settings := w.settings - {id});
    match w.contexts.prev[id]
    case Some(saved) => Activate(popped, w.settings[saved])
    case None => popped.(sink := ClearLock(popped.sink))
  }

  /**
   * Nesting: creating a context inside the current one and destroying it
   * again gives back exactly the state the outer context had applied.
   */
  lemma NestedContextRestores(w: Logging, id: ContextId, c: ContextSettings)
    requires Valid(w) && id !in w.contexts.prev
    requires w.contexts.top.Some? && w.contexts.top.value in w.settings
    requires Applied(w, w.settings[w.contexts.top.value])
    ensures DestroyContext(CreateContext(w, id, c), id) == w
  {
    NestedContextReactivates(w, id, c);
    ActivateApplied(w, w.settings[w.contexts.top.value]);
  }

  /**
   * Whatever happened since the outer context was applied, creating and
   * destroying an inner context ends with the outer context re-applied and
   * the context stack and settings as they were.
   */
  lemma NestedContextReactivates(w: Logging, id: ContextId, c: ContextSettings)
    requires Valid(w) && id !in w.contexts.prev
    requires w.contexts.top.Some? && w.contexts.top.value in w.settings
    ensures DestroyContext(CreateContext(w, id, c), id) == Activate(w, w.settings[w.contexts.top.value])
  {
    var outer := w.settings[w.contexts.top.value];
    var r := DestroyContext(CreateContext(w, id, c), id);
    var a := Activate(w, outer);
    PushPopRestores(w.contexts, id);
    assert r.settings == w.settings[id := c] - {id};
    assert r.settings == w.settings;
    assert r.loggers == a.loggers;
    assert r.sink == a.sink;
  }

  /**
   * Destroying the outermost context leaves logging unlocked, while the
   * level, format and escape flag it applied stay in force.
   */
  lemma OutermostContextUnlocks(w: Logging, id: ContextId, c: ContextSettings)
    requires Valid(w) && id !in w.contexts.prev && w.contexts.top.None?
    ensures var r := DestroyContext(CreateContext(w, id, c), id);
      && !Initialized(r)
      && r.contexts.top.None?
      && r.sink.shouldEscape == c.shouldEscape
      && r.sink.formatter == Some(PatternFormatter(c.format))
      && forall i :: 0 <= i < |r.loggers| ==> r.loggers[i].level == c.level && r.loggers[i].pattern == c.format
  {
  }

  /**
   * Right after a context is created, a statement reaches any logger exactly
   * when its level is at least the context's. (A later individual setLogLevel
   * can change that while the context is still current.)
   */
  lemma ContextGatesStatements(w: Logging, id: ContextId, c: ContextSettings, logger: LoggerId, level: Level)
    requires Valid(w) && id !in w.contexts.prev
    ensures PassesLevel(GetLog(CreateContext(w, id, c).loggers, logger), level) <==> Rank(level) >= Rank(c.level)
  {
    var r := CreateContext(w, id, c);
    assert GetLog(r.loggers, logger) == r.loggers[Ordinal(logger)];
    assert r.loggers[Ordinal(logger)].level == c.level;
  }

  /** Whatever contexts do, looking a logger up by its id's spelling still finds getLog's entry. */
  lemma ContextsKeepLookup(w: Logging, id: ContextId, c: ContextSettings, logger: LoggerId)
    requires Valid(w) && id !in w.contexts.prev
    ensures FindLogger(CreateContext(w, id, c).loggers, Spelling(logger)) == Some(Ordinal(logger))
  {
    FindLoggerBySpelling(CreateContext(w, id, c).loggers, logger);
  }
}

=== FILE: delegates.dfy ===
/**
 * The delegating log sink. Every logger writes to one sink; the sink hands
 * each line to its current delegate. Delegates are stacked: creating one
 * makes it current and remembers the one it replaced, destroying the current
 * one brings that one back. The built-in stderr delegate sits at the bottom
 * and owns the optional lock, which the sink forwards to whatever delegate is
 * current.
 */
module Delegates {
  import opened Wrappers
  import opened Escaping
  import opened LinkedStack

  /** A sink delegate: the built-in stderr one or one created by a caller. */
  datatype DelegateId = StderrDelegate | CustomDelegate(n: nat)

  /** An opaque handle for a lock object. */
  type LockToken = nat

  /** The built-in stderr delegate's own state: the lock it writes under, if any. */
  datatype StderrSink = StderrSink(lock: Option<LockToken>)

  /** A pattern formatter installed on the sink. */
  datatype Formatter = PatternFormatter(pattern: string)

  /** A log record as the logging library hands it to the sink. */
  datatype LogMsg = LogMsg(loggerName: string, payload: Bytes)

  datatype LogSink = LogSink(
    delegates: Links<DelegateId>,  // the current delegate and each live delegate's previous one
    stderr: Option<StderrSink>,    // the built-in delegate, once init has installed it
    formatter: Option<Formatter>,
    shouldEscape: bool)

  /** What the sink does with one record: the delegate it is handed to and the text handed on. */
  datatype Delivery = Delivery(target: DelegateId, text: Bytes)

  /** StderrSinkDelegate's fresh state: no lock. */
  function NewStderrSink(): (d: StderrSink)
    ensures d.lock.None?
  {
    StderrSink(None)
  }

  /** The private DelegatingLogSink constructor: no delegate, no formatter, escaping off. */
  function NewLogSink(): (s: LogSink)
    ensures s.delegates.top.None? && Stacked(s.delegates, [])
    ensures s.stderr.None? && s.formatter.None? && !s.shouldEscape
  {
    LogSink(Empty(), None, None, false)
  }

  /** The SinkDelegate constructor: the new delegate becomes current and remembers the previous one. */
  function Attach(s: LogSink, d: DelegateId): (r: LogSink)
    requires d !in s.delegates.prev
    ensures r.delegates.top == Some(d)
    ensures d in r.delegates.prev && r.delegates.prev[d] == s.delegates.top
    ensures forall s0 :: Stacked(s.delegates, s0) ==> Stacked(r.delegates, s0 + [d])
    ensures r.stderr == s.stderr && r.formatter == s.formatter && r.shouldEscape == s.shouldEscape
  {
    PushStackedAll(s.delegates, d);
    s.(delegates := Push(s.delegates, d))
  }

  /**
   * The SinkDelegate destructor. The delegate being destroyed must be the
   * current one (delegates are freed in stack order); its previous delegate
   * becomes current again.
   */
  function Detach(s: LogSink, d: DelegateId): (r: LogSink)
    requires d in s.delegates.prev && s.delegates.top == Some(d)
    ensures r.delegates.top == s.delegates.prev[d]
    ensures d !in r.delegates.prev
    ensures forall s0 :: Stacked(s.delegates, s0 + [d]) ==> Stacked(r.delegates, s0)
    ensures r.stderr == s.stderr && r.formatter == s.formatter && r.shouldEscape == s.shouldEscape
  {
    PopStackedAll(s.delegates, d);
    s.(delegates := Pop(s.delegates, d))
  }

  /** DelegatingLogSink::init: a new sink whose only delegate is the built-in stderr one. */
  function InitSink(): (s: LogSink)
    ensures s.delegates.top == Some(StderrDelegate)
    ensures StderrDelegate in s.delegates.prev && s.delegates.prev[StderrDelegate] == None
    ensures Stacked(s.delegates, [StderrDelegate])
    ensures s.stderr.Some? && !HasLock(s)
    ensures s.formatter.None? && !s.shouldEscape
  {
    var empty := NewLogSink();
    assert [] + [StderrDelegate] == [StderrDelegate];
    Attach(empty, StderrDelegate).(stderr := Some(NewStderrSink()))
  }

  /** DelegatingLogSink::hasLock: whether the built-in stderr delegate has a lock. */
  predicate HasLock(s: LogSink)
    requires s.stderr.Some?
  {
    s.stderr.value.lock.Some?
  }

  /** DelegatingLogSink::setLock: gives the built-in stderr delegate a lock, whichever delegate is current. */
  function SetLock(s: LogSink, lock: LockToken): (r: LogSink)
    requires s.stderr.Some?
    ensures r.stderr.Some? && HasLock(r) && r.stderr.value.lock == Some(lock)
    ensures r.delegates == s.delegates && r.formatter == s.formatter && r.shouldEscape == s.shouldEscape
  {
    s.(stderr := Some(StderrSink(Some(lock))))
  }

  /** DelegatingLogSink::clearLock: removes the built-in stderr delegate's lock, whichever delegate is current. */
  function ClearLock(s: LogSink): (r: LogSink)
    requires s.stderr.Some?
    ensures r.stderr.Some? && !HasLock(r)
    ensures r.delegates == s.delegates && r.formatter == s.formatter && r.shouldEscape == s.shouldEscape
  {
    s.(stderr := Some(StderrSink(None)))
  }

  /** DelegatingLogSink::set_should_escape. */
  function SetShouldEscape(s: LogSink, shouldEscape: bool): (r: LogSink)
    ensures r.shouldEscape == shouldEscape
    ensures r.delegates == s.delegates && r.stderr == s.stderr && r.formatter == s.formatter
  {
    s.(shouldEscape := shouldEscape)
  }

  /** DelegatingLogSink::set_pattern: installs a pattern formatter. */
  function SetPattern(s: LogSink, pattern: string): (r: LogSink)
    ensures r.formatter == Some(PatternFormatter(pattern))
    ensures r.delegates == s.delegates && r.stderr == s.stderr && r.shouldEscape == s.shouldEscape
  {
    s.(formatter := Some(PatternFormatter(pattern)))
  }

  /**
   * DelegatingLogSink::log. The text is the formatter's rendering of the
   * record when a formatter is installed and the raw payload otherwise; it
   * goes to the current delegate, escaped when escaping is on. How a pattern
   * renders a record is the logging library's business, so it is the
   * parameter `render`.
   */
  function Log(s: LogSink, msg: LogMsg, render: (string, LogMsg) -> Bytes): (r: Delivery)
    requires s.delegates.top.Some?
    ensures r.target == s.delegates.top.value
    ensures var text := if s.formatter.Some? then render(s.formatter.value.pattern, msg) else msg.payload;
      && (!s.shouldEscape ==> r.text == text)
      && (s.shouldEscape ==> r.text == EscapeLogLine(text) && UnescapeLogLine(r.text) == Some(text))
  {
    var text := if s.formatter.Some? then render(s.formatter.value.pattern, msg) else msg.payload;
    EscapeLogLineRoundTrip(text);
    Delivery(s.delegates.top.value, if s.shouldEscape then EscapeLogLine(text) else text)
  }

  /** DelegatingLogSink::flush: forwarded to the current delegate. */
  function Flush(s: LogSink): (target: DelegateId)
    requires s.delegates.top.Some?
    ensures Some(target) == s.delegates.top
  {
    s.delegates.top.value
  }

  /**
   * hasLock reads the built-in stderr delegate only: creating or destroying
   * other delegates never changes it, and setLock/clearLock decide it
   * whichever delegate is current.
   */
  lemma LockIndependentOfDelegates(s: LogSink, d: DelegateId, lock: LockToken)
    requires s.stderr.Some?
    ensures d !in s.delegates.prev ==>
      && HasLock(Attach(s, d)) == HasLock(s)
      && HasLock(SetLock(Attach(s, d), lock)) && !HasLock(ClearLock(Attach(s, d)))
    ensures d in s.delegates.prev && s.delegates.top == Some(d) ==>
      && HasLock(Detach(s, d)) == HasLock(s)
      && HasLock(SetLock(Detach(s, d), lock)) && !HasLock(ClearLock(Detach(s, d)))
  {
  }

  /** Creating a delegate and destroying it again leaves the sink exactly as it was. */
  lemma DelegateScopeRestoresSink(s: LogSink, d: DelegateId)
    requires d !in s.delegates.prev
    ensures Detach(Attach(s, d), d) == s
  {
    PushPopRestores(s.delegates, d);
  }

  /** While a caller's delegate is current, lines go to it; once it is gone they go to stderr again. */
  lemma DelegateOverridesStderr(s: LogSink, n: nat, msg: LogMsg, render: (string, LogMsg) -> Bytes)
    requires s == InitSink()
    ensures Log(Attach(s, CustomDelegate(n)), msg, render).target == CustomDelegate(n)
    ensures Log(Detach(Attach(s, CustomDelegate(n)), CustomDelegate(n)), msg, render).target == StderrDelegate
  {
    DelegateScopeRestoresSink(s, CustomDelegate(n));
  }
}

=== FILE: escaping.dfy ===
/**
 * Escaping of log lines before they reach a sink delegate.
 *
 * `EscapeLogLine` splits a line into its leading text and its maximal
 * trailing run of ASCII whitespace, C-escapes the leading text and keeps the
 * trailing whitespace as it is, so that end-of-line characters still end the
 * line. C-escaping follows absl's `CEscape`: the six characters with a named
 * escape get it, every other non-printable byte becomes a three-digit octal
 * escape, and every remaining byte is copied.
 */
module Escaping {
  import opened Wrappers

  /** One byte of a log line (a string view carries raw bytes). */
  type Byte = c: char | c as int < 256 witness 'a'
  type Bytes = seq<Byte>

  /** absl::ascii_isspace: space and the controls \t \n \v \f \r. */
  predicate IsAsciiSpace(c: Byte) {
    c == ' ' || 9 <= c as int <= 13
  }

  /** absl::ascii_isprint: the bytes 0x20 through 0x7e. */
  predicate IsPrint(c: Byte) {
    32 <= c as int <= 126
  }

  predicate IsOctalDigit(c: Byte) {
    '0' <= c <= '7'
  }

  predicate AllPrint(s: Bytes) {
    forall i :: 0 <= i < |s| ==> IsPrint(s[i])
  }

  predicate AllSpace(s: Bytes) {
    forall i :: 0 <= i < |s| ==> IsAsciiSpace(s[i])
  }

  function OctalDigit(d: int): (c: Byte)
    requires 0 <= d < 8
    ensures IsOctalDigit(c) && c as int - '0' as int == d
  {
    (48 + d) as char
  }

  // ---------------------------------------------------------------------------
  // C-escaping
  // ---------------------------------------------------------------------------

  /** The escape sequence absl's CEscape emits for one byte. */
  function CEscapeByte(c: Byte): (r: Bytes)
    ensures 1 <= |r| <= 4 && AllPrint(r)
    ensures |r| == 1 <==> IsPrint(c) && c != '"' && c != '\'' && c != '\\'
    ensures |r| == 1 ==> r[0] == c
    ensures |r| > 1 ==> r[0] == '\\'
    // only a space escapes to something that ends in whitespace
    ensures IsAsciiSpace(r[|r| - 1]) <==> c == ' '
  {
    if c == '\n' then "\\n"
    else if c == '\r' then "\\r"
    else if c == '\t' then "\\t"
    else if c == '"' then "\\\""
    else if c == '\'' then "\\'"
    else if c == '\\' then "\\\\"
    else if !IsPrint(c) then
      ['\\', OctalDigit(c as int / 64), OctalDigit(c as int % 64 / 8), OctalDigit(c as int % 8)]
    else [c]
  }

  /** absl::CEscape: the concatenation of the escapes of every byte. */
  function CEscape(s: Bytes): (r: Bytes)
    ensures AllPrint(r)
    ensures |s| <= |r| <= 4 * |s|
    ensures |r| == 0 <==> |s| == 0
  {
    if |s| == 0 then [] else CEscapeByte(s[0]) + CEscape(s[1..])
  }

  lemma {:induction false} CEscapeAppend(a: Bytes, b: Bytes)
    ensures CEscape(a + b) == CEscape(a) + CEscape(b)
  {
    if |a| == 0 {
      assert a + b == b;
    } else {
      assert (a + b)[1..] == a[1..] + b;
      CEscapeAppend(a[1..], b);
    }
  }

  /** The escape of a text that ends in a non-space byte also ends in a non-space byte. */
  lemma CEscapeEndsLikeInput(s: Bytes)
    requires |s| > 0 && !IsAsciiSpace(s[|s| - 1])
    ensures |CEscape(s)| > 0 && !IsAsciiSpace(CEscape(s)[|CEscape(s)| - 1])
  {
    var init, last := s[..|s| - 1], s[|s| - 1];
    assert s == init + [last];
    CEscapeAppend(init, [last]);
    CEscapeSingle(last);
    LastOfConcat(CEscape(init), CEscapeByte(last));
  }

  lemma CEscapeSingle(c: Byte)
    ensures CEscape([c]) == CEscapeByte(c)
  {
    assert [c][1..] == [];
    assert CEscapeByte(c) + [] == CEscapeByte(c);
  }

  lemma LastOfConcat(a: Bytes, b: Bytes)
    requires |b| > 0
    ensures (a + b)[|a + b| - 1] == b[|b| - 1]
  {
  }

  // ---------------------------------------------------------------------------
  // A reference decoder for the escaped form
  // ---------------------------------------------------------------------------

  /** The byte a named escape `\x` stands for, if `x` names one. */
  function NamedEscape(x: Byte): Option<Byte> {
    if x == 'n' then Some('\n')
    else if x == 'r' then Some('\r')
    else if x == 't' then Some('\t')
    else if x == '"' then Some('"')
    else if x == '\'' then Some('\'')
    else if x == '\\' then Some('\\')
    else None
  }

  function Prepend(c: Byte, rest: Option<Bytes>): Option<Bytes> {
    match rest
    case None => None
    case Some(t) => Some([c] + t)
  }

  /**
   * Decodes the escaped form: `\` followed by a named-escape letter, or by
   * exactly three octal digits of a value below 256, stands for one byte; any other byte stands
   * for itself. A malformed escape yields None.
   */
  function CUnescape(e: Bytes): (r: Option<Bytes>)
    decreases |e|
  {
    if |e| == 0 then Some([])
    else if e[0] != '\\' then Prepend(e[0], CUnescape(e[1..]))
    else if |e| >= 2 && NamedEscape(e[1]).Some? then
      Prepend(NamedEscape(e[1]).value, CUnescape(e[2..]))
    else if |e| >= 4 && IsOctalDigit(e[1]) && IsOctalDigit(e[2]) && IsOctalDigit(e[3]) then
      var v := 64 * (e[1] as int - 48) + 8 * (e[2] as int - 48) + (e[3] as int - 48);
      if v < 256 then Prepend(v as char, CUnescape(e[4..])) else None
    else None
  }

  lemma OctalDigitsRecompose(c: int)
    requires 0 <= c < 256
    ensures 64 * (c / 64) + 8 * (c % 64 / 8) + c % 8 == c
  {
  }

  lemma UnescapeOneByte(c: Byte, rest: Bytes)
    ensures CUnescape(CEscapeByte(c) + rest) == Prepend(c, CUnescape(rest))
  {
    var e := CEscapeByte(c) + rest;
    if |CEscapeByte(c)| == 1 {
      assert e[1..] == rest;
    } else if |CEscapeByte(c)| == 2 {
      assert e[2..] == rest;
    } else {
      assert e[4..] == rest;
      OctalDigitsRecompose(c as int);
    }
  }

  /** The decoder recovers every input from its escape: CEscape is injective. */
  lemma {:induction false} CUnescapeCEscape(s: Bytes)
    ensures CUnescape(CEscape(s)) == Some(s)
  {
    if |s| > 0 {
      UnescapeOneByte(s[0], CEscape(s[1..]));
      CUnescapeCEscape(s[1..]);
      assert [s[0]] + s[1..] == s;
    }
  }

  // ---------------------------------------------------------------------------
  // Splitting off the trailing whitespace
  // ---------------------------------------------------------------------------

  /**
   * Where the maximal trailing run of ASCII whitespace starts: the position
   * the reverse search for the last non-space byte stops at.
   */
  function TrailingStart(s: Bytes): (k: nat)
    ensures k <= |s|
    ensures AllSpace(s[k..])
    ensures k == 0 || !IsAsciiSpace(s[k - 1])
  {
    if |s| == 0 || !IsAsciiSpace(s[|s| - 1]) then |s|
    else
      var k := TrailingStart(s[..|s| - 1]);
      assert s[k..] == s[..|s| - 1][k..] + [s[|s| - 1]];
      k
  }

  /** Maximality: no whitespace-only suffix starts before TrailingStart. */
  lemma TrailingStartMaximal(s: Bytes, j: nat)
    requires j <= |s| && AllSpace(s[j..])
    ensures TrailingStart(s) <= j
  {
  }

  /** Any split with an all-whitespace suffix and a non-whitespace byte before it is TrailingStart's. */
  lemma TrailingStartUnique(s: Bytes, k: nat)
    requires k <= |s| && AllSpace(s[k..])
    requires k == 0 || !IsAsciiSpace(s[k - 1])
    ensures TrailingStart(s) == k
  {
    TrailingStartMaximal(s, k);
  }

  lemma AllSpaceSplitsAtZero(s: Bytes)
    ensures AllSpace(s) ==> TrailingStart(s) == 0
  {
    if AllSpace(s) {
      assert s[0..] == s;
      TrailingStartMaximal(s, 0);
    }
  }

  function Leading(s: Bytes): Bytes {
    s[..TrailingStart(s)]
  }

  function Trailing(s: Bytes): Bytes {
    s[TrailingStart(s)..]
  }

  // ---------------------------------------------------------------------------
  // escapeLogLine and its inverse
  // ---------------------------------------------------------------------------

  /** DelegatingLogSink::escapeLogLine. */
  function EscapeLogLine(s: Bytes): (r: Bytes)
    // the result keeps exactly the input's trailing whitespace ...
    ensures Trailing(r) == Trailing(s)
    // ... and everything before it is printable, so no control byte survives there
    ensures AllPrint(r[..|r| - |Trailing(s)|])
    // a line that is empty or only whitespace passes unchanged
    ensures AllSpace(s) ==> r == s
  {
    EscapedLineProperties(s);
    CEscape(Leading(s)) + Trailing(s)
  }

  lemma EscapedLineProperties(s: Bytes)
    ensures var r := CEscape(Leading(s)) + Trailing(s);
      && Trailing(r) == Trailing(s)
      && AllPrint(r[..|r| - |Trailing(s)|])
      && (AllSpace(s) ==> r == s)
  {
    var lead, trail := Leading(s), Trailing(s);
    var r := CEscape(lead) + trail;
    EscapedSplit(lead, trail);
    assert r[..|r| - |trail|] == CEscape(lead);
    AllSpaceSplitsAtZero(s);
  }

  /** Escaping the leading part does not move the split point. */
  lemma EscapedSplit(lead: Bytes, trail: Bytes)
    requires AllSpace(trail)
    requires |lead| == 0 || !IsAsciiSpace(lead[|lead| - 1])
    ensures TrailingStart(CEscape(lead) + trail) == |CEscape(lead)|
  {
    if |lead| > 0 {
      CEscapeEndsLikeInput(lead);
    }
    SplitAfterNonSpace(CEscape(lead), trail);
  }

  /** Whitespace appended after a text that does not end in whitespace is exactly the trailing run. */
  lemma SplitAfterNonSpace(e: Bytes, trail: Bytes)
    requires AllSpace(trail)
    requires |e| == 0 || !IsAsciiSpace(e[|e| - 1])
    ensures TrailingStart(e + trail) == |e|
  {
    var r := e + trail;
    assert r[|e|..] == trail;
    assert |e| > 0 ==> r[|e| - 1] == e[|e| - 1];
    TrailingStartUnique(r, |e|);
  }

  /** Inverse of EscapeLogLine: decode everything before the trailing whitespace. */
  function UnescapeLogLine(e: Bytes): Option<Bytes> {
    var k := TrailingStart(e);
    match CUnescape(e[..k])
    case None => None
    case Some(lead) => Some(lead + e[k..])
  }

  /** An escaped line is the escaped lead followed by the trailing whitespace of the input. */
  lemma EscapeLogLineShape(s: Bytes)
    ensures Leading(s) + Trailing(s) == s
    ensures AllSpace(Trailing(s))
    ensures |Leading(s)| == 0 || !IsAsciiSpace(Leading(s)[|Leading(s)| - 1])
  {
    assert s[..TrailingStart(s)] + s[TrailingStart(s)..] == s;
  }

  /** Decoding a line whose lead decodes and whose split point is known. */
  lemma UnescapeSplitLine(e: Bytes, trail: Bytes, lead: Bytes)
    requires TrailingStart(e + trail) == |e| && CUnescape(e) == Some(lead)
    ensures UnescapeLogLine(e + trail) == Some(lead + trail)
  {
    var r := e + trail;
    assert r[..|e|] == e;
    assert r[|e|..] == trail;
  }

  /** A delegate that receives an escaped line can recover the original exactly. */
  lemma EscapeLogLineRoundTrip(s: Bytes)
    ensures UnescapeLogLine(EscapeLogLine(s)) == Some(s)
  {
    var lead, trail := Leading(s), Trailing(s);
    EscapeLogLineShape(s);
    EscapedSplit(lead, trail);
    CUnescapeCEscape(lead);
    UnescapeSplitLine(CEscape(lead), trail, lead);
  }
}

=== FILE: linked_stack.dfy ===
/**
 * The intrusive stack shared by sink delegates and logging contexts: a
 * "current" pointer plus, for every live element, the pointer that was
 * current when the element was created. Creating an element makes it
 * current; destroying one makes its saved pointer current again.
 */
module LinkedStack {
  import opened Wrappers

  datatype Links<K> = Links(top: Option<K>, prev: map<K, Option<K>>)

  /** The live elements, oldest first, are exactly `s`, and every saved pointer names its predecessor. */
  ghost predicate Stacked<K(!new)>(l: Links<K>, s: seq<K>) {
    && l.top == (if |s| == 0 then None else Some(s[|s| - 1]))
    && (forall x :: x in l.prev <==> x in s)
    && (forall i, j :: 0 <= i < j < |s| ==> s[i] != s[j])
    && (|s| > 0 ==> s[0] in l.prev && l.prev[s[0]] == None)
    && (forall i, j :: 0 <= i && j == i + 1 && j < |s| ==> s[j] in l.prev && l.prev[s[j]] == Some(s[i]))
  }

  /** No element is live and nothing is current. */
  function Empty<K(!new)>(): (r: Links<K>)
    ensures Stacked(r, [])
  {
    Links(None, map[])
  }

  /** Creating element `k`: it saves the current pointer and becomes current. */
  function Push<K>(l: Links<K>, k: K): (r: Links<K>)
    requires k !in l.prev
    ensures r.top == Some(k) && k in r.prev && r.prev[k] == l.top
    ensures r.prev.Keys == l.prev.Keys + {k}
    ensures forall j :: j in l.prev ==> r.prev[j] == l.prev[j]
  {
    Links(Some(k), l.prev[k := l.top])
  }

  /** Destroying live element `k`: its saved pointer becomes current and it is no longer live. */
  function Pop<K>(l: Links<K>, k: K): (r: Links<K>)
    requires k in l.prev
    ensures r.top == l.prev[k]
    ensures r.prev.Keys == l.prev.Keys - {k}
    ensures forall j :: j in r.prev ==> r.prev[j] == l.prev[j]
  {
    Links(l.prev[k], l.prev - {k})
  }

  /** Creating an element pushes it onto the abstract stack. */
  lemma PushStacked<K(!new)>(l: Links<K>, s: seq<K>, k: K)
    requires Stacked(l, s) && k !in l.prev
    ensures Stacked(Push(l, k), s + [k])
  {
    var r, t := Push(l, k), s + [k];
    assert t[|s|] == k;
    forall i | 0 <= i < |s|
      ensures t[i] == s[i]
    {
    }
    forall x
      ensures x in r.prev <==> x in t
    {
      assert x in t <==> x in s || x == k;
    }
    forall i, j | 0 <= i < j < |t|
      ensures t[i] != t[j]
    {
      if j == |s| {
        assert s[i] in l.prev;
      }
    }
    forall i, j | 0 <= i && j == i + 1 && j < |t|
      ensures t[j] in r.prev && r.prev[t[j]] == Some(t[i])
    {
      if j < |s| {
        assert l.prev[s[j]] == Some(s[i]);
      }
    }
  }

  /** Destroying the current element pops the abstract stack. */
  lemma PopStacked<K(!new)>(l: Links<K>, s: seq<K>, k: K)
    requires Stacked(l, s + [k])
    ensures k in l.prev && l.top == Some(k)
    ensures Stacked(Pop(l, k), s)
  {
    var r, t := Pop(l, k), s + [k];
    assert t[|s|] == k;
    forall i | 0 <= i < |s|
      ensures t[i] == s[i] && t[i] != k
    {
    }
    forall x
      ensures x in r.prev <==> x in s
    {
      assert x in t <==> x in s || x == k;
    }
    forall i, j | 0 <= i && j == i + 1 && j < |s|
      ensures s[j] in r.prev && r.prev[s[j]] == Some(s[i])
    {
      assert l.prev[t[j]] == Some(t[i]);
    }
  }

  /** PushStacked for every reading of the links at once. */
  lemma PushStackedAll<K(!new)>(l: Links<K>, k: K)
    requires k !in l.prev
    ensures forall s :: Stacked(l, s) ==> Stacked(Push(l, k), s + [k])
  {
    forall s | Stacked(l, s)
      ensures Stacked(Push(l, k), s + [k])
    {
      PushStacked(l, s, k);
    }
  }

  /** PopStacked for every reading of the links at once. */
  lemma PopStackedAll<K(!new)>(l: Links<K>, k: K)
    requires k in l.prev
    ensures forall s :: Stacked(l, s + [k]) ==> Stacked(Pop(l, k), s)
  {
    forall s | Stacked(l, s + [k])
      ensures Stacked(Pop(l, k), s)
    {
      PopStacked(l, s, k);
    }
  }

  /** A create/destroy pair leaves the links exactly as they were. */
  lemma PushPopRestores<K>(l: Links<K>, k: K)
    requires k !in l.prev
    ensures Pop(Push(l, k), k) == l
  {
    assert l.prev[k := l.top] - {k} == l.prev;
  }

  /** A non-empty sequence is its prefix followed by its last element. */
  lemma LastSplit<K>(s: seq<K>)
    requires |s| > 0
    ensures s == s[..|s| - 1] + [s[|s| - 1]]
  {
  }

  /** Destroying the current element of a non-empty stack drops its last entry. */
  lemma PopLast<K(!new)>(l: Links<K>, s: seq<K>)
    requires Stacked(l, s) && |s| > 0
    ensures s[|s| - 1] in l.prev && l.top == Some(s[|s| - 1])
    ensures Stacked(Pop(l, s[|s| - 1]), s[..|s| - 1])
  {
    LastSplit(s);
    PopStacked(l, s[..|s| - 1], s[|s| - 1]);
  }

  /** The links determine the abstract stack: the chain of saved pointers has one reading. */
  lemma {:induction false} StackedUnique<K(!new)>(l: Links<K>, s: seq<K>, t: seq<K>)
    requires Stacked(l, s) && Stacked(l, t)
    ensures s == t
    decreases |s|
  {
    if |s| > 0 {
      assert |t| > 0;
      PopLast(l, s);
      PopLast(l, t);
      StackedUnique(Pop(l, s[|s| - 1]), s[..|s| - 1], t[..|t| - 1]);
      LastSplit(s);
      LastSplit(t);
    }
  }
}

=== FILE: log_macros.dfy ===
/**
 * What the logging macros hand to a logger. A statement at some level is
 * dropped unless that level is at least the logger's current level;
 * otherwise the logger receives the format with a "[file:line] " prefix,
 * and the connection and stream variants put "[C{}] " or "[C{}][S{}] " in
 * front of the caller's format together with the matching ids in front of the
 * caller's arguments.
 */
module LogMacros {
  import opened Wrappers
  import opened Registry

  /** ENVOY_LOG_COMP_LEVEL: a statement at `level` gets past `logger`. */
  predicate PassesLevel(logger: Logger, level: Level) {
    Rank(level) >= Rank(logger.level)
  }

  /** A format argument. */
  datatype FormatArg = Num(n: nat) | Str(s: string)

  /** The call a logger receives: the level method invoked, the format string and its arguments. */
  datatype LogCall = LogCall(level: Level, format: string, args: seq<FormatArg>)

  /** The decimal spelling of a line number, as the preprocessor stringizes it. */
  function Decimal(n: nat): (s: string)
    ensures |s| > 0 && AllDigits(s)
    ensures |s| > 1 ==> s[0] != '0'
  {
    var d := ['0' + (n % 10) as char];
    if n < 10 then d else Decimal(n / 10) + d
  }

  predicate AllDigits(s: string) {
    forall i :: 0 <= i < |s| ==> '0' <= s[i] <= '9'
  }

  /** The number a string of decimal digits denotes, most significant digit first. */
  function DecimalValue(s: string): nat
    requires AllDigits(s)
  {
    if |s| == 0 then 0 else 10 * DecimalValue(s[..|s| - 1]) + (s[|s| - 1] as int - '0' as int)
  }

  /** Reading the stringized line number back gives the line number. */
  lemma {:induction false} DecimalRoundTrip(n: nat)
    ensures DecimalValue(Decimal(n)) == n
  {
    if n >= 10 {
      var s := Decimal(n);
      assert s[..|s| - 1] == Decimal(n / 10);
      DecimalRoundTrip(n / 10);
    }
  }

  /**
   * LOG_PREFIX: "[<file>:<line>] ". Reading the prefix back gives the file
   * name between the bracket and the colon, and the line number in decimal
   * between the colon and the closing "] ".
   */
  function LogPrefix(file: string, line: nat): (p: string)
    ensures |p| >= |file| + 5
    ensures p[0] == '[' && p[1..|file| + 1] == file && p[|file| + 1] == ':' && p[|p| - 2..] == "] "
    ensures AllDigits(p[|file| + 2..|p| - 2]) && DecimalValue(p[|file| + 2..|p| - 2]) == line
    ensures var d := p[|file| + 2..|p| - 2]; |d| > 0 && (|d| > 1 ==> d[0] != '0')
  {
    var d := Decimal(line);
    var p := "[" + file + ":" + d + "] ";
    assert p[1..|file| + 1] == file;
    assert p[|file| + 2..|p| - 2] == d;
    DecimalRoundTrip(line);
    p
  }

  /** The number of "{}" placeholders in a format, read left to right. */
  function Placeholders(s: string): nat {
    if |s| < 2 then 0
    else if s[0] == '{' && s[1] == '}' then 1 + Placeholders(s[2..])
    else Placeholders(s[1..])
  }

  /** Placeholders add up over a concatenation unless the seam itself spells "{}". */
  lemma {:induction false} PlaceholdersAppend(a: string, b: string)
    requires |a| == 0 || |b| == 0 || a[|a| - 1] != '{' || b[0] != '}'
    ensures Placeholders(a + b) == Placeholders(a) + Placeholders(b)
    decreases |a|
  {
    if |a| == 0 {
      assert a + b == b;
    } else if |a| == 1 {
      if |b| > 0 {
        assert (a + b)[1..] == b;
      } else {
        assert a + b == a;
      }
    } else if a[0] == '{' && a[1] == '}' {
      assert (a + b)[2..] == a[2..] + b;
      PlaceholdersAppend(a[2..], b);
    } else {
      assert (a + b)[1..] == a[1..] + b;
      PlaceholdersAppend(a[1..], b);
    }
  }

  lemma {:induction false} DecimalHasNoPlaceholders(s: string)
    requires forall i :: 0 <= i < |s| ==> '0' <= s[i] <= '9'
    ensures Placeholders(s) == 0
    decreases |s|
  {
    if |s| >= 2 {
      DecimalHasNoPlaceholders(s[1..]);
    }
  }

  /** The prefix carries placeholders only where the file name does. */
  lemma LogPrefixPlaceholders(file: string, line: nat)
    ensures Placeholders(LogPrefix(file, line)) == Placeholders(file)
  {
    var d := Decimal(line);
    DecimalHasNoPlaceholders(d);
    PlaceholdersAppend("[", file);
    PlaceholdersAppend("[" + file, ":");
    PlaceholdersAppend("[" + file + ":", d);
    PlaceholdersAppend("[" + file + ":" + d, "] ");
  }

  /**
   * ENVOY_LOG_TO_LOGGER: the statement reaches the logger exactly when its
   * level passes the logger's, and then with the source location in front of
   * the caller's format.
   */
  function LogToLogger(logger: Logger, level: Level, file: string, line: nat, format: string, args: seq<FormatArg>)
    : (r: Option<LogCall>)
    ensures r.Some? <==> Rank(level) >= Rank(logger.level)
    ensures r.Some? ==> r.value.level == level && r.value.args == args
    ensures r.Some? ==> r.value.format == LogPrefix(file, line) + format
    ensures r.Some? ==> |r.value.format| > |format| && r.value.format[..1] == "[" && r.value.format[|r.value.format| - |format|..] == format
    ensures r.Some? ==> Placeholders(r.value.format) == Placeholders(file) + Placeholders(format)
  {
    if PassesLevel(logger, level) then
      var f := LogPrefix(file, line) + format;
      LogPrefixPlaceholders(file, line);
      PlaceholdersAppend(LogPrefix(file, line), format);
      assert f[|f| - |format|..] == format;
      Some(LogCall(level, f, args))
    else None
  }

  /** The tag the connection macros put in front of the caller's format. */
  const ConnTag: string := "[C{}] "

  /** The tag the stream macros put in front of the caller's format. */
  const StreamTag: string := "[C{}][S{}] "

  /** The connection tag asks for one argument and cannot join a "{" before the format into a placeholder. */
  lemma ConnTagPlaceholders(format: string)
    ensures Placeholders(ConnTag + format) == 1 + Placeholders(format)
  {
    PlaceholdersAppend(ConnTag, format);
    assert Placeholders(ConnTag) == 1;
  }

  /** The stream tag asks for two arguments. */
  lemma StreamTagPlaceholders(format: string)
    ensures Placeholders(StreamTag + format) == 2 + Placeholders(format)
  {
    assert StreamTag == "[C{}]" + "[S{}] ";
    PlaceholdersAppend("[C{}]", "[S{}] ");
    assert Placeholders("[C{}]") == 1 && Placeholders("[S{}] ") == 1;
    PlaceholdersAppend(StreamTag, format);
  }

  /** ENVOY_CONN_LOG_TO_LOGGER: "[C{}] " in front of the format, the connection id in front of the arguments. */
  function ConnLogToLogger(logger: Logger, level: Level, file: string, line: nat, format: string,
                           connectionId: nat, args: seq<FormatArg>): (r: Option<LogCall>)
    ensures r.Some? <==> Rank(level) >= Rank(logger.level)
    ensures r.Some? ==> r.value.args == [Num(connectionId)] + args
    ensures r.Some? ==> |r.value.format| > |format| + 6
    ensures r.Some? ==> r.value.level == level && r.value.format == LogPrefix(file, line) + ConnTag + format
    ensures r.Some? ==> r.value.format[|r.value.format| - |format| - 6..] == ConnTag + format
    // exactly one placeholder is added for the one argument added
    ensures r.Some? ==> Placeholders(r.value.format) == Placeholders(file) + 1 + Placeholders(format)
  {
    ConnTagPlaceholders(format);
    LogToLogger(logger, level, file, line, ConnTag + format, [Num(connectionId)] + args)
  }

  /**
   * ENVOY_STREAM_LOG_TO_LOGGER: "[C{}][S{}] " in front of the format, the
   * connection id (0 when the stream has no connection) and the stream id in
   * front of the arguments.
   */
  function StreamLogToLogger(logger: Logger, level: Level, file: string, line: nat, format: string,
                             connectionId: Option<nat>, streamId: nat, args: seq<FormatArg>): (r: Option<LogCall>)
    ensures r.Some? <==> Rank(level) >= Rank(logger.level)
    ensures r.Some? && connectionId.Some? ==> r.value.args == [Num(connectionId.value), Num(streamId)] + args
    ensures r.Some? && connectionId.None? ==> r.value.args == [Num(0), Num(streamId)] + args
    ensures r.Some? ==> |r.value.format| > |format| + 11
    ensures r.Some? ==> r.value.level == level && r.value.format == LogPrefix(file, line) + StreamTag + format
    ensures r.Some? ==> r.value.format[|r.value.format| - |format| - 11..] == StreamTag + format
    // exactly two placeholders are added for the two arguments added
    ensures r.Some? ==> Placeholders(r.value.format) == Placeholders(file) + 2 + Placeholders(format)
  {
    StreamTagPlaceholders(format);
    LogToLogger(logger, level, file, line, StreamTag + format,
                [Num(connectionId.GetOr(0)), Num(streamId)] + args)
  }

  /** A statement that gets past a logger would also get past it at any more severe level. */
  lemma PassesLevelMonotone(logger: Logger, level: Level, higher: Level)
    requires PassesLevel(logger, level) && Rank(level) <= Rank(higher)
    ensures PassesLevel(logger, higher)
  {
  }

  /** Raising a logger's level never lets more statements through. */
  lemma RaisingLoggerLevelFilters(logger: Logger, raised: Level, level: Level)
    requires Rank(logger.level) <= Rank(raised) && PassesLevel(logger.(level := raised), level)
    ensures PassesLevel(logger, level)
  {
  }
}

=== FILE: registry.dfy ===
/**
 * The fixed table of named loggers: one logger per id, in the order the ids
 * are listed, each named by the spelling of its id. Levels and formats can be
 * changed for all loggers at once; a logger can be found by its name.
 */
module Registry {
  import opened Wrappers

  /** The logger ids, in their listed (enum) order. */
  datatype LoggerId =
      Admin | Aws | Assert | Backtrace | Client | Config
    | Connection | ConnHandler | Decompression | Dubbo | File | Filter
    | ForwardProxy | Grpc | Hc | HealthChecker | Http | Http2
    | Hystrix | Init | Io | Jwt | Kafka | Lua
    | Main | Misc | Mongo | Quic | QuicStream | Pool
    | Rbac | Redis | Router | Runtime | Stats | Secret
    | Tap | Testing | Thrift | Tracing | Upstream | Udp
    | Wasm

  const NumLoggers: nat := 43

  /** The enum ordinal of each id. */
  function Ordinal(id: LoggerId): (n: nat)
    ensures n < NumLoggers
  {
    match id
    case Admin => 0
    case Aws => 1
    case Assert => 2
    case Backtrace => 3
    case Client => 4
    case Config => 5
    case Connection => 6
    case ConnHandler => 7
    case Decompression => 8
    case Dubbo => 9
    case File => 10
    case Filter => 11
    case ForwardProxy => 12
    case Grpc => 13
    case Hc => 14
    case HealthChecker => 15
    case Http => 16
    case Http2 => 17
    case Hystrix => 18
    case Init => 19
    case Io => 20
    case Jwt => 21
    case Kafka => 22
    case Lua => 23
    case Main => 24
    case Misc => 25
    case Mongo => 26
    case Quic => 27
    case QuicStream => 28
    case Pool => 29
    case Rbac => 30
    case Redis => 31
    case Router => 32
    case Runtime => 33
    case Stats => 34
    case Secret => 35
    case Tap => 36
    case Testing => 37
    case Thrift => 38
    case Tracing => 39
    case Upstream => 40
    case Udp => 41
    case Wasm => 42
  }

  /** The spelling of each id, which is also the name of its logger. */
  function Spelling(id: LoggerId): (name: string)
    ensures |name| > 0
  {
    match id
    case Admin => "admin"
    case Aws => "aws"
    case Assert => "assert"
    case Backtrace => "backtrace"
    case Client => "client"
    case Config => "config"
    case Connection => "connection"
    case ConnHandler => "conn_handler"
    case Decompression => "decompression"
    case Dubbo => "dubbo"
    case File => "file"
    case Filter => "filter"
    case ForwardProxy => "forward_proxy"
    case Grpc => "grpc"
    case Hc => "hc"
    case HealthChecker => "health_checker"
    case Http => "http"
    case Http2 => "http2"
    case Hystrix => "hystrix"
    case Init => "init"
    case Io => "io"
    case Jwt => "jwt"
    case Kafka => "kafka"
    case Lua => "lua"
    case Main => "main"
    case Misc => "misc"
    case Mongo => "mongo"
    case Quic => "quic"
    case QuicStream => "quic_stream"
    case Pool => "pool"
    case Rbac => "rbac"
    case Redis => "redis"
    case Router => "router"
    case Runtime => "runtime"
    case Stats => "stats"
    case Secret => "secret"
    case Tap => "tap"
    case Testing => "testing"
    case Thrift => "thrift"
    case Tracing => "tracing"
    case Upstream => "upstream"
    case Udp => "udp"
    case Wasm => "wasm"
  }

  /**
   * The id listed at position `n`. The list is matched in four blocks of
   * about eleven rather than as one 43-way match, only so that the proofs
   * that evaluate it stay small; the mapping is the listed order either way.
   */
  function IdAt(n: nat): LoggerId
    requires n < NumLoggers
  {
    if n < 11 then
      (match n
      case 0 => Admin
      case 1 => Aws
      case 2 => Assert
      case 3 => Backtrace
      case 4 => Client
      case 5 => Config
      case 6 => Connection
      case 7 => ConnHandler
      case 8 => Decompression
      case 9 => Dubbo
      case _ => File)
    else if n < 22 then
      (match n
      case 11 => Filter
      case 12 => ForwardProxy
      case 13 => Grpc
      case 14 => Hc
      case 15 => HealthChecker
      case 16 => Http
      case 17 => Http2
      case 18 => Hystrix
      case 19 => Init
      case 20 => Io
      case _ => Jwt)
    else if n < 33 then
      (match n
      case 22 => Kafka
      case 23 => Lua
      case 24 => Main
      case 25 => Misc
      case 26 => Mongo
      case 27 => Quic
      case 28 => QuicStream
      case 29 => Pool
      case 30 => Rbac
      case 31 => Redis
      case _ => Router)
    else
      (match n
      case 33 => Runtime
      case 34 => Stats
      case 35 => Secret
      case 36 => Tap
      case 37 => Testing
      case 38 => Thrift
      case 39 => Tracing
      case 40 => Upstream
      case 41 => Udp
      case _ => Wasm)
  }

  /** Reads an id back from its spelling, choosing among the names by their first letter. */
  function IdOfName(name: string): (r: Option<LoggerId>)
  {
    if |name| == 0 then None
    else match name[0]
      case 'a' =>
        (match name
        case "admin" => Some(Admin)
        case "aws" => Some(Aws)
        case "assert" => Some(Assert)
        case _ => None)
      case 'b' => if name == "backtrace" then Some(Backtrace) else None
      case 'c' =>
        (match name
        case "client" => Some(Client)
        case "config" => Some(Config)
        case "connection" => Some(Connection)
        case "conn_handler" => Some(ConnHandler)
        case _ => None)
      case 'd' =>
        (match name
        case "decompression" => Some(Decompression)
        case "dubbo" => Some(Dubbo)
        case _ => None)
      case 'f' =>
        (match name
        case "file" => Some(File)
        case "filter" => Some(Filter)
        case "forward_proxy" => Some(ForwardProxy)
        case _ => None)
      case 'g' => if name == "grpc" then Some(Grpc) else None
      case 'h' =>
        (match name
        case "hc" => Some(Hc)
        case "health_checker" => Some(HealthChecker)
        case "http" => Some(Http)
        case "http2" => Some(Http2)
        case "hystrix" => Some(Hystrix)
        case _ => None)
      case 'i' =>
        (match name
        case "init" => Some(Init)
        case "io" => Some(Io)
        case _ => None)
      case 'j' => if name == "jwt" then Some(Jwt) else None
      case 'k' => if name == "kafka" then Some(Kafka) else None
      case 'l' => if name == "lua" then Some(Lua) else None
      case 'm' =>
        (match name
        case "main" => Some(Main)
        case "misc" => Some(Misc)
        case "mongo" => Some(Mongo)
        case _ => None)
      case 'q' =>
        (match name
        case "quic" => Some(Quic)
        case "quic_stream" => Some(QuicStream)
        case _ => None)
      case 'p' => if name == "pool" then Some(Pool) else None
      case 'r' =>
        (match name
        case "rbac" => Some(Rbac)
        case "redis" => Some(Redis)
        case "router" => Some(Router)
        case "runtime" => Some(Runtime)
        case _ => None)
      case 's' =>
        (match name
        case "stats" => Some(Stats)
        case "secret" => Some(Secret)
        case _ => None)
      case 't' =>
        (match name
        case "tap" => Some(Tap)
        case "testing" => Some(Testing)
        case "thrift" => Some(Thrift)
        case "tracing" => Some(Tracing)
        case _ => None)
      case 'u' =>
        (match name
        case "upstream" => Some(Upstream)
        case "udp" => Some(Udp)
        case _ => None)
      case 'w' => if name == "wasm" then Some(Wasm) else None
      case _ => None
  }

  lemma SpellingRoundTrip(id: LoggerId)
    ensures IdOfName(Spelling(id)) == Some(id)
  {
    if Ordinal(id) < 22 {
      SpellingRoundTripFirstHalf(id);
    } else {
      SpellingRoundTripSecondHalf(id);
    }
  }

  // The round trip is proved for the two halves of the list separately, only
  // to keep each proof obligation small.
  lemma SpellingRoundTripFirstHalf(id: LoggerId)
    requires Ordinal(id) < 22
    ensures IdOfName(Spelling(id)) == Some(id)
  {
  }

  lemma SpellingRoundTripSecondHalf(id: LoggerId)
    requires Ordinal(id) >= 22
    ensures IdOfName(Spelling(id)) == Some(id)
  {
  }

  /** Each id's ordinal is its position in the list, and each of the 43 positions holds one id. */
  lemma IdsInListedOrder()
    ensures forall id :: IdAt(Ordinal(id)) == id
    ensures forall n :: 0 <= n < NumLoggers ==> Ordinal(IdAt(n)) == n
  {
    forall id: LoggerId
      ensures IdAt(Ordinal(id)) == id
    {
      IdAtOrdinal(id);
    }
    forall n | 0 <= n < NumLoggers
      ensures Ordinal(IdAt(n)) == n
    {
      OrdinalIdAt(n);
    }
  }

  lemma IdAtOrdinal(id: LoggerId)
    ensures IdAt(Ordinal(id)) == id
  {
    match id
    case Admin =>
    case Aws =>
    case Assert =>
    case Backtrace =>
    case Client =>
    case Config =>
    case Connection =>
    case ConnHandler =>
    case Decompression =>
    case Dubbo =>
    case File =>
    case Filter =>
    case ForwardProxy =>
    case Grpc =>
    case Hc =>
    case HealthChecker =>
    case Http =>
    case Http2 =>
    case Hystrix =>
    case Init =>
    case Io =>
    case Jwt =>
    case Kafka =>
    case Lua =>
    case Main =>
    case Misc =>
    case Mongo =>
    case Quic =>
    case QuicStream =>
    case Pool =>
    case Rbac =>
    case Redis =>
    case Router =>
    case Runtime =>
    case Stats =>
    case Secret =>
    case Tap =>
    case Testing =>
    case Thrift =>
    case Tracing =>
    case Upstream =>
    case Udp =>
    case Wasm =>
  }

  /** Each position's id has that position as its ordinal; checked in blocks of five or six positions to keep each proof small. */
  lemma OrdinalIdAt(n: nat)
    requires n < NumLoggers
    ensures Ordinal(IdAt(n)) == n
  {
    if n < 6 {
      OrdinalIdAtRange0(n);
    } else if n < 11 {
      OrdinalIdAtRange1(n);
    } else if n < 17 {
      OrdinalIdAtRange2(n);
    } else if n < 22 {
      OrdinalIdAtRange3(n);
    } else if n < 28 {
      OrdinalIdAtRange4(n);
    } else if n < 33 {
      OrdinalIdAtRange5(n);
    } else if n < 38 {
      OrdinalIdAtRange6(n);
    } else {
      OrdinalIdAtRange7(n);
    }
  }

  lemma OrdinalIdAtRange0(n: nat)
    requires 0 <= n < 6
    ensures Ordinal(IdAt(n)) == n
  {
    if n == 0 {
      assert Ordinal(IdAt(0)) == 0;
    } else if n == 1 {
      assert Ordinal(IdAt(1)) == 1;
    } else if n == 2 {
      assert Ordinal(IdAt(2)) == 2;
    } else if n == 3 {
      assert Ordinal(IdAt(3)) == 3;
    } else if n == 4 {
      assert Ordinal(IdAt(4)) == 4;
    } else {
      assert Ordinal(IdAt(5)) == 5;
    }
  }

  lemma OrdinalIdAtRange1(n: nat)
    requires 6 <= n < 11
    ensures Ordinal(IdAt(n)) == n
  {
    if n == 6 {
      assert Ordinal(IdAt(6)) == 6;
    } else if n == 7 {
      assert Ordinal(IdAt(7)) == 7;
    } else if n == 8 {
      assert Ordinal(IdAt(8)) == 8;
    } else if n == 9 {
      assert Ordinal(IdAt(9)) == 9;
    } else {
      assert Ordinal(IdAt(10)) == 10;
    }
  }

  lemma OrdinalIdAtRange2(n: nat)
    requires 11 <= n < 17
    ensures Ordinal(IdAt(n)) == n
  {
    if n == 11 {
      assert Ordinal(IdAt(11)) == 11;
    } else if n == 12 {
      assert Ordinal(IdAt(12)) == 12;
    } else if n == 13 {
      assert Ordinal(IdAt(13)) == 13;
    } else if n == 14 {
      assert Ordinal(IdAt(14)) == 14;
    } else if n == 15 {
      assert Ordinal(IdAt(15)) == 15;
    } else {
      assert Ordinal(IdAt(16)) == 16;
    }
  }

  lemma OrdinalIdAtRange3(n: nat)
    requires 17 <= n < 22
    ensures Ordinal(IdAt(n)) == n
  {
    if n == 17 {
      assert Ordinal(IdAt(17)) == 17;
    } else if n == 18 {
      assert Ordinal(IdAt(18)) == 18;
    } else if n == 19 {
      assert Ordinal(IdAt(19)) == 19;
    } else if n == 20 {
      assert Ordinal(IdAt(20)) == 20;
    } else {
      assert Ordinal(IdAt(21)) == 21;
    }
  }

  lemma OrdinalIdAtRange4(n: nat)
    requires 22 <= n < 28
    ensures Ordinal(IdAt(n)) == n
  {
    if n == 22 {
      assert Ordinal(IdAt(22)) == 22;
    } else if n == 23 {
      assert Ordinal(IdAt(23)) == 23;
    } else if n == 24 {
      assert Ordinal(IdAt(24)) == 24;
    } else if n == 25 {
      assert Ordinal(IdAt(25)) == 25;
    } else if n == 26 {
      assert Ordinal(IdAt(26)) == 26;
    } else {
      assert Ordinal(IdAt(27)) == 27;
    }
  }

  lemma OrdinalIdAtRange5(n: nat)
    requires 28 <= n < 33
    ensures Ordinal(IdAt(n)) == n
  {
    if n == 28 {
      assert Ordinal(IdAt(28)) == 28;
    } else if n == 29 {
      assert Ordinal(IdAt(29)) == 29;
    } else if n == 30 {
      assert Ordinal(IdAt(30)) == 30;
    } else if n == 31 {
      assert Ordinal(IdAt(31)) == 31;
    } else {
      assert Ordinal(IdAt(32)) == 32;
    }
  }

  lemma OrdinalIdAtRange6(n: nat)
    requires 33 <= n < 38
    ensures Ordinal(IdAt(n)) == n
  {
    if n == 33 {
      assert Ordinal(IdAt(33)) == 33;
    } else if n == 34 {
      assert Ordinal(IdAt(34)) == 34;
    } else if n == 35 {
      assert Ordinal(IdAt(35)) == 35;
    } else if n == 36 {
      assert Ordinal(IdAt(36)) == 36;
    } else {
      assert Ordinal(IdAt(37)) == 37;
    }
  }

  lemma OrdinalIdAtRange7(n: nat)
    requires 38 <= n < 43
    ensures Ordinal(IdAt(n)) == n
  {
    if n == 38 {
      assert Ordinal(IdAt(38)) == 38;
    } else if n == 39 {
      assert Ordinal(IdAt(39)) == 39;
    } else if n == 40 {
      assert Ordinal(IdAt(40)) == 40;
    } else if n == 41 {
      assert Ordinal(IdAt(41)) == 41;
    } else {
      assert Ordinal(IdAt(42)) == 42;
    }
  }
  /** No two listed ids are spelled alike. */
  lemma SpellingsDistinct()
    ensures forall i, j :: 0 <= i < j < NumLoggers ==> Spelling(IdAt(i)) != Spelling(IdAt(j))
  {
    forall i, j | 0 <= i < j < NumLoggers
      ensures Spelling(IdAt(i)) != Spelling(IdAt(j))
    {
      OrdinalIdAt(i);
      OrdinalIdAt(j);
      SpellingInjective(IdAt(i), IdAt(j));
    }
  }

  /** Two ids are spelled alike exactly when they are the same id. */
  lemma SpellingInjective(a: LoggerId, b: LoggerId)
    ensures Spelling(a) == Spelling(b) <==> a == b
  {
    SpellingRoundTrip(a);
    SpellingRoundTrip(b);
  }

  // ---------------------------------------------------------------------------
  // Loggers and the table
  // ---------------------------------------------------------------------------

  /** spdlog's severities, least severe first; `Off` suppresses everything below it. */
  datatype Level = Trace | Debug | Info | Warn | Err | Critical | Off

  /** The numeric value of a level in spdlog's level enum. */
  function Rank(l: Level): nat {
    match l
    case Trace => 0
    case Debug => 1
    case Info => 2
    case Warn => 3
    case Err => 4
    case Critical => 5
    case Off => 6
  }

  /** A named logger with its current minimum level and format pattern. */
  datatype Logger = Logger(name: string, level: Level, pattern: string)

  /** One logger per id, in listed order, named by its id's spelling. */
  ghost predicate IsRegistryTable(t: seq<Logger>) {
    |t| == NumLoggers && forall i :: 0 <= i < |t| ==> t[i].name == Spelling(IdAt(i))
  }

  /**
   * Registry::allLoggers: the table as first built. The level and pattern a
   * freshly built logger starts with belong to the logging library, so they
   * are parameters here.
   */
  function AllLoggers(initialLevel: Level, initialPattern: string): (t: seq<Logger>)
    ensures IsRegistryTable(t)
    ensures forall i :: 0 <= i < |t| ==> t[i].level == initialLevel && t[i].pattern == initialPattern
  {
    seq(NumLoggers, i requires 0 <= i < NumLoggers => Logger(Spelling(IdAt(i)), initialLevel, initialPattern))
  }

  /** Registry::getLog: the logger of an id is the table entry at the id's ordinal. */
  function GetLog(t: seq<Logger>, id: LoggerId): (lg: Logger)
    requires |t| == NumLoggers
    ensures lg == t[Ordinal(id)]
    ensures IsRegistryTable(t) ==> lg.name == Spelling(id)
  {
    IdAtOrdinal(id);
    t[Ordinal(id)]
  }

  /** Registry::setLogLevel: every logger gets level `l`; names and patterns stay. */
  function SetLogLevel(t: seq<Logger>, l: Level): (r: seq<Logger>)
    ensures |r| == |t|
    ensures forall i :: 0 <= i < |t| ==> r[i] == t[i].(level := l)
  {
    if |t| == 0 then [] else [t[0].(level := l)] + SetLogLevel(t[1..], l)
  }

  /** Registry::setLogFormat: every logger gets pattern `f`; names and levels stay. */
  function SetLogFormat(t: seq<Logger>, f: string): (r: seq<Logger>)
    ensures |r| == |t|
    ensures forall i :: 0 <= i < |t| ==> r[i] == t[i].(pattern := f)
  {
    if |t| == 0 then [] else [t[0].(pattern := f)] + SetLogFormat(t[1..], f)
  }

  /**
   * Loggable<id> keeps a reference to getLog(id), i.e. to the table entry, so
   * it sees every later bulk update of level and format.
   */
  lemma GetLogSeesUpdates(t: seq<Logger>, id: LoggerId, l: Level, f: string)
    requires IsRegistryTable(t)
    ensures GetLog(SetLogFormat(SetLogLevel(t, l), f), id) == Logger(Spelling(id), l, f)
  {
    var k := Ordinal(id);
    assert SetLogFormat(SetLogLevel(t, l), f)[k] == t[k].(level := l).(pattern := f);
    IdAtOrdinal(id);
  }

  /** Setting the level twice is setting it once; a later level overrides an earlier one. */
  lemma SetLogLevelIdempotent(t: seq<Logger>, l: Level, l': Level)
    ensures SetLogLevel(SetLogLevel(t, l), l) == SetLogLevel(t, l)
    ensures SetLogLevel(SetLogLevel(t, l), l') == SetLogLevel(t, l')
  {
  }

  /** The bulk setters keep the table a registry table, so every lookup still resolves. */
  lemma SettersKeepRegistry(t: seq<Logger>, l: Level, f: string)
    requires IsRegistryTable(t)
    ensures IsRegistryTable(SetLogLevel(t, l)) && IsRegistryTable(SetLogFormat(t, f))
  {
  }

  /** The first position at or after `i` whose logger is named `name`. */
  function FindLoggerFrom(t: seq<Logger>, name: string, i: nat): (r: Option<nat>)
    requires i <= |t|
    decreases |t| - i
    ensures r.Some? ==> i <= r.value < |t| && t[r.value].name == name
    ensures r.Some? ==> forall j :: i <= j < r.value ==> t[j].name != name
    ensures r.None? <==> forall j :: i <= j < |t| ==> t[j].name != name
  {
    if i == |t| then None
    else if t[i].name == name then Some(i)
    else FindLoggerFrom(t, name, i + 1)
  }

  /** Registry::logger(name): the first logger with that name, or none. */
  function FindLogger(t: seq<Logger>, name: string): (r: Option<nat>)
    ensures r.Some? ==> r.value < |t| && t[r.value].name == name
    ensures r.Some? ==> forall j :: 0 <= j < r.value ==> t[j].name != name
    ensures r.None? <==> forall j :: 0 <= j < |t| ==> t[j].name != name
  {
    FindLoggerFrom(t, name, 0)
  }

  /** Looking a logger up by its id's spelling finds the very entry getLog returns. */
  lemma FindLoggerBySpelling(t: seq<Logger>, id: LoggerId)
    requires IsRegistryTable(t)
    ensures FindLogger(t, Spelling(id)) == Some(Ordinal(id))
  {
    IdAtOrdinal(id);
    forall j | 0 <= j < Ordinal(id)
      ensures t[j].name != Spelling(id)
    {
      SpellingOnlyAtOrdinal(t, id, j);
    }
    FindLoggerFirst(t, Spelling(id), Ordinal(id));
  }

  /** On the registry table, an id's spelling names no entry but the one at its ordinal. */
  lemma SpellingOnlyAtOrdinal(t: seq<Logger>, id: LoggerId, j: nat)
    requires IsRegistryTable(t) && j < |t| && j != Ordinal(id)
    ensures t[j].name != Spelling(id)
  {
    OrdinalIdAt(j);
    SpellingInjective(IdAt(j), id);
  }

  /** Lookup returns a position exactly when the name is there and at no earlier position. */
  lemma FindLoggerFirst(t: seq<Logger>, name: string, k: nat)
    requires k < |t| && t[k].name == name
    requires forall j :: 0 <= j < k ==> t[j].name != name
    ensures FindLogger(t, name) == Some(k)
  {
  }

  /**
   * Loggable<id> and Registry::logger(spelling(id)) reach the same logger:
   * the name lookup finds the entry at the id's ordinal, which is the one
   * getLog returns.
   */
  lemma GetLogIsLookup(t: seq<Logger>, id: LoggerId)
    requires IsRegistryTable(t)
    ensures FindLogger(t, Spelling(id)).Some?
    ensures t[FindLogger(t, Spelling(id)).value] == GetLog(t, id)
  {
    FindLoggerBySpelling(t, id);
  }

  /** Lookup fails exactly for names that are not the spelling of an id. */
  lemma FindLoggerMissing(t: seq<Logger>, name: string)
    requires IsRegistryTable(t)
    ensures FindLogger(t, name).None? <==> forall id :: Spelling(id) != name
  {
    if FindLogger(t, name).Some? {
      var k := FindLogger(t, name).value;
      assert Spelling(IdAt(k)) == name;
    } else {
      forall id: LoggerId
        ensures Spelling(id) != name
      {
        IdAtOrdinal(id);
        assert t[Ordinal(id)].name == Spelling(id);
      }
    }
  }
}

=== FILE: wrappers.dfy ===
/** The optional value used wherever the logging code hands out a pointer that may be null. */
module Wrappers {

  datatype Option<+T> = None | Some(value: T) {

    /** The wrapped value, or `default` when there is none. */
    function GetOr(default: T): T {
      match this
      case Some(v) => v
      case None => default
    }
  }
}
